=== FILE: README.md ===
# Todo-list backend: board/goal lifecycle and credential checks, modelled in Dafny

This project models the two sequential cores of a multi-user task-board backend:

1. **Boards, categories, goals and comments** (`todolist/goals/views.py`). The database is a
   `Store`: one map per table, from primary key to record. Each view's `get_queryset`
   becomes a scoping predicate. Each list view becomes a method that returns exactly the
   rows in scope, each once, in the view's default `ordering`. Each detail view's
   `perform_destroy` becomes a pure store-to-store function, applied atomically, as
   `transaction.atomic()` promises:
   - a board delete flags the board and all of its categories and archives every goal under them;
   - a category delete flags only the category;
   - a goal delete archives the goal and keeps the row.

   A delete request from an authenticated user who passes the view-level permission checks first looks
   the object up in the view's queryset (`NotFound` otherwise), then asks the object-level permission
   check (`PermissionDenied` otherwise), then destroys.
2. **Credential validation** (`todolist/core/serializers.py`): registration, login and password
   change as fixed sequences of checks. Each failure is keyed to a field. The strength policy
   (`validate_password`), the hasher (`make_password`), `authenticate` and `check_password` are
   parameters of the functions.

Files:
- `results.dfy`: `Option` and `Result`.
- `ordering.dfy`: lexicographic sort keys. Also an insertion sort of a set by key, proved to return each element once, in order.
- `goals_model.dfy`: the rows, referential integrity (`WellFormed`) and `SameLinks`. `SameLinks` holds when two stores differ only in flags, statuses and plain fields.
- `goals_scope.dfy`: the querysets, the default orderings and the four list views.
- `goals_destroy.dfy`: the deletes, their cascade and frame properties, idempotence, the effect on visibility, and the request-level lookup and destroy.
- `core_serializers.dfy`: registration, login and password change.

Three behaviours of the code are easy to misread:
- The goal list's default order is priority first, then due date (`views.py:89`).
- Goal and comment visibility checks only board participation. Archived goals, goals in deleted categories and goals under deleted boards stay listed, and so do their comments.
- A category delete does not touch its goals. The goal query at `views.py:62` is built but never evaluated (see the `GoalsDestroy.DeleteCategory` line under "## Left out").

## Model

| member | source | states |
|---|---|---|
| GoalsDestroy.DeleteBoard | todolist/goals/views.py:194-201 | the board is flagged; every category on it is flagged, including already-deleted ones, with nothing else changed; every goal whose category is on the board is archived, with every other field kept; other boards, categories and goals are identical; comments are untouched; no row appears or disappears |
| GoalsDestroy.DeleteBoardIdempotent | todolist/goals/views.py:194-201 | deleting a board a second time leaves the store as the first delete did |
| GoalsDestroy.DeleteBoardVisibility | todolist/goals/views.py:190-201 | after a board delete, no user sees the board or its categories in any list or lookup; every other board and category is as visible as before; every goal and comment is visible to exactly the same users as before |
| GoalsDestroy.DeleteCategory | todolist/goals/views.py:57-63 | among the modelled fields only the category's flag is set; boards, every goal (including the category's own) and comments are unchanged |
| GoalsDestroy.DeleteCategoryIdempotent | todolist/goals/views.py:57-63 | deleting a category twice equals deleting it once |
| GoalsDestroy.DeleteCategoryVisibility | todolist/goals/views.py:53-63 | the deleted category leaves every user's scope, while goal and comment visibility is unchanged |
| GoalsDestroy.CategoryDestroyKeepsGoals | todolist/goals/views.py:57-63 | a successful category delete request leaves the goal table identical |
| GoalsDestroy.ArchiveGoal | todolist/goals/views.py:108-112 | the goal row stays and gets status archived, its other modelled fields unchanged; every other goal, category, board and comment is unchanged |
| GoalsDestroy.ArchiveGoalIdempotent | todolist/goals/views.py:108-112 | archiving a goal twice equals archiving it once |
| GoalsDestroy.ArchiveGoalVisibility | todolist/goals/views.py:104-112 | an archived goal is visible to exactly the users who saw it before |
| GoalsDestroy.GoalDestroyRepeatable | todolist/goals/views.py:97-112 | after a successful goal delete request, repeating it, when the permission classes still allow it, succeeds (the goal is still in scope) and leaves the same store |
| GoalsDestroy.BoardDestroyOnce | todolist/goals/views.py:190-201 | after a successful board delete request, repeating it is NotFound, because the board left the queryset |
| GoalsDestroy.RemoveComment | todolist/goals/views.py:144-154 | the comment row, and only it, is removed |
| GoalsDestroy.SoftDeletesKeepLinks | todolist/goals/views.py:194-201 | board, category and goal deletes add or remove no row and change no foreign key or participant set |
| GoalsDestroy.GetObject | todolist/goals/views.py:182-192 | an object outside the view's queryset is NotFound whatever the permissions; inside, PermissionDenied exactly when the object-level permission check refuses; otherwise the object |
| GoalsDestroy.Destroy | todolist/goals/views.py:182-201 | a delete succeeds exactly when the object is in scope and permitted, and then yields that kind's destroy; it is NotFound exactly when out of scope |
| GoalsDestroy.DestroyPreservesWellFormed | todolist/goals/views.py:194-201 | every successful delete keeps all foreign keys pointing at existing rows |
| GoalsDestroy.OutsiderGetsNotFound | todolist/goals/views.py:190-192 | a non-participant of a board gets NotFound, never PermissionDenied from the object-level check, for that board and for every category, goal and comment under it, for any action |
| GoalsScope.OutsidersSeeNothing | todolist/goals/views.py:177-179 | a non-participant of a board has neither the board nor anything under it in scope |
| GoalsScope.GoalScopeIgnoresFlags | todolist/goals/views.py:92-106 | two stores with the same rows, links and participants show every user the same goals and comments, whatever their statuses and deletion flags |
| GoalsScope.CommentScopeFollowsGoal | todolist/goals/views.py:139-141 | a comment is in scope exactly when its goal is |
| GoalsScope.ListBoards | todolist/goals/views.py:175-179 | exactly the non-deleted boards the user participates in, each once, titles ascending |
| GoalsScope.ListCategories | todolist/goals/views.py:38-43 | exactly the non-deleted categories on boards the user participates in, each once, titles ascending |
| GoalsScope.ListGoals | todolist/goals/views.py:89-94 | exactly the goals on boards the user participates in, each once, ordered by priority and then by due date with missing dates last |
| GoalsScope.ListComments | todolist/goals/views.py:137-141 | exactly the comments on such goals, each once, newest first |
| GoalsScope.TitleKeyOrder | todolist/goals/views.py:175 | the sort key of a title orders titles exactly as character-by-character comparison does |
| GoalsScope.GoalKeyOrder | todolist/goals/views.py:89 | the goal sort key orders goals exactly as (priority, due date, missing dates last) does |
| GoalsScope.CommentKeyOrder | todolist/goals/views.py:137 | the comment sort key orders comments exactly as descending creation time does |
| CoreSerializers.ValidateRegistration | todolist/core/serializers.py:16-28 | a weak password fails keyed to `password`, before the repeat is compared; a strong one that differs from `password_repeat` fails with the non-field mismatch message; success happens exactly otherwise and returns the input minus `password_repeat`, every other field unchanged |
| CoreSerializers.WeakPasswordReportedFirst | todolist/core/serializers.py:21-27 | a weak password is reported against `password` even when the repeat also differs |
| CoreSerializers.CreateUser | todolist/core/serializers.py:30-36 | the stored row holds the hash of the password in its place and keeps every other field |
| CoreSerializers.Register | todolist/core/serializers.py:11-36 | registration succeeds exactly when validation does |
| CoreSerializers.RegisterStoresHash | todolist/core/serializers.py:18-35 | a registered row has no `password_repeat`, stores the hash of the field-validated password and keeps every other field-validated value |
| CoreSerializers.Login | todolist/core/serializers.py:47-56 | login returns the user `authenticate` yields, and fails with AuthenticationFailed exactly when it yields none |
| CoreSerializers.ValidatePasswordChange | todolist/core/serializers.py:76-88 | a wrong old password fails keyed to `old_password`, whatever the new password is; otherwise a weak new password fails keyed to `new_password`; success happens exactly otherwise and returns the input |
| CoreSerializers.WrongOldPasswordFirst | todolist/core/serializers.py:79-81 | a wrong old password makes the whole change fail keyed to `old_password` |
| CoreSerializers.UpdatePassword | todolist/core/serializers.py:90-94 | the row's password becomes the hash of the new password; no other field changes |
| CoreSerializers.ChangePassword | todolist/core/serializers.py:70-94 | a password change succeeds exactly when the old password checks and the new one is strong |
| CoreSerializers.ChangePasswordOnlyTouchesPassword | todolist/core/serializers.py:90-94 | after a successful change, the row stores the new password's hash and every other field is unchanged |

## Left out

- Create and update endpoints for boards, categories, goals and comments: their serializers under `goals/` are not part of this model. So is the validation of the comment's `goal` payload (`views.py:124`).
- The permission classes (`goals/permissions.py`) are not part of this model. Their decision is an opaque parameter `allowed(store, user, object, action)`, and participant roles are not modelled.
- Date filtering (`GoalDateFilter`), free-text search, pagination and user-selected ordering are framework filter backends. Only the default orderings are modelled.
- GoalsScope.ListBoards: titles are ordered by code point, so "B" comes before "a". Together with the NULL placement below, this is the ordering of PostgreSQL with the "C" collation. Other collations, such as a locale collation that puts "a" before "B", are not modelled.
- GoalsScope.ListCategories: the same code-point title order and the same PostgreSQL "C" collation assumption as ListBoards.
- GoalsScope.ListGoals: missing due dates sort after present ones. This is PostgreSQL's ascending NULL placement, in the same configuration as above. SQLite, for one, puts NULLs first and is not modelled.
- Ties in a default ordering may come back in any order, as the database returns them.
- Duplicate rows from the participant join are not modelled. Query results are duplicate-free.
- Transactions are modelled as single atomic state transitions. Concurrency and isolation are not modelled.
- Password hashing (random salt included), the strength policy, `authenticate` and `check_password` are library calls, so they are function parameters. A policy that raises something other than a validation error is not modelled.
- The field validation that runs before registration's `validate` is not modelled, nor is the saving of the row. That validation checks the uniqueness of `username` and required and blank fields. It also rewrites values: character fields are whitespace-trimmed, so a submitted `" pw "` is validated and hashed as `"pw"`, and undeclared keys are dropped. The same trimming applies to `old_password` and `new_password` in a password change. The model's inputs are the values after this step.
- CoreSerializers.ValidateRegistration: starts from field-validated input. Field errors, such as a taken username, are reported before the password checks and instead of them; the rows for ValidateRegistration, WeakPasswordReportedFirst, Register and RegisterStoresHash hold only for input that passed field validation.
- CoreSerializers.Login: the inputs are the field-validated values. The login view validates before `create` runs (`core/views.py:25`), and both fields are required, non-blank character fields (`core/serializers.py:44-45`). A missing, blank or whitespace-only username or password is therefore a validation error keyed to that field, not AuthenticationFailed, and `create` never runs. Other values are whitespace-trimmed before `authenticate` sees them. The model passes its inputs to `authenticate` unchanged and does not model that validation.
- CoreSerializers.ValidatePasswordChange: only full (PUT) updates are modelled. A partial (PATCH) update skips the hidden `user` default and the required checks, so `data["user"]`, `data["old_password"]` or `data["new_password"]` can raise KeyError, which surfaces as a server error rather than a validation error.
- GoalsDestroy.DeleteCategory: assumes the goal table has a `board` relation and an `is_deleted` field. The query at `views.py:62` is never evaluated, but its field names are checked when the filter is built. If either is missing, the filter raises inside the transaction, the flag set at lines 60-61 is rolled back and the request fails with a server error. The goal model is not part of this model, so that path is not modelled.
- GoalsDestroy.GetObject: requests come from authenticated users, and the view-level permission checks (`IsAuthenticated` and each permission class's `has_permission`) are assumed to pass. Those checks run before the lookup. An anonymous request gets NotAuthenticated, and a view-level refusal gets PermissionDenied, before any NotFound. OutsiderGetsNotFound holds for the object-level check only.
- GoalsDestroy.DeleteCategory: the rows' `updated` timestamp is not modelled (the category admin lists it, `admin.py:11`). `instance.save()` at `views.py:61` refreshes it to the current time. The cascaded `.update()` at `views.py:199` does not, so a category flagged by a board delete keeps its old `updated`, and that difference is not modelled either. The unused `created` of a category is kept.
- GoalsDestroy.ArchiveGoal: the `updated` timestamp that `instance.save()` at `views.py:111` refreshes is not modelled. The cascaded `.update()` at `views.py:200` leaves it unchanged on goals archived by a board delete.
- GoalsDestroy.DeleteBoard: the `updated` timestamp that `instance.save()` at `views.py:198` refreshes on the board is not modelled. The `.update()` calls at lines 199-200 leave it unchanged on the cascaded categories and goals, as the model does.
- Session login/logout and HTTP responses (`todolist/core/views.py`), the admin site and app configuration contain no modelled logic.
- The value `perform_destroy` returns is ignored by the framework and is not modelled.

=== FILE: core_serializers.dfy ===
/** The credential checks of registration, login and password change.
    The password strength policy, password hashing, `authenticate` and a user's
    `check_password` belong to the authentication library and enter as parameters. */
module CoreSerializers {
  import opened Results

  /** A serializer's validated attributes, or a user row, as field name -> value. */
  type Data = map<string, string>

  /** A primary key of a user row. */
  type UserId = nat

  const PasswordKey: string := "password"
  const PasswordRepeatKey: string := "password_repeat"

  const MismatchMessage: string := "\U{041F}\U{0430}\U{0440}\U{043E}\U{043B}\U{0438} \U{043D}\U{0435} \U{0441}\U{043E}\U{0432}\U{043F}\U{0430}\U{0434}\U{0430}\U{044E}\U{0442}!"
  const WrongPasswordMessage: string := "\U{0412}\U{0432}\U{0435}\U{0434}\U{0435}\U{043D} \U{043D}\U{0435}\U{0432}\U{0435}\U{0440}\U{043D}\U{044B}\U{0439} \U{043F}\U{0430}\U{0440}\U{043E}\U{043B}\U{044C}!"

  /** The input fields a validation error can be keyed to. */
  datatype Field = PasswordField | OldPasswordField | NewPasswordField

  /** A validation error keyed to one field, or one not keyed to any field. */
  datatype ValidationError = FieldError(field: Field, messages: seq<string>) | NonFieldError(message: string)

  datatype AuthError = AuthenticationFailed

  /** What the password strength policy says of a password. */
  datatype Verdict = Strong | Weak(messages: seq<string>)

  type PasswordPolicy = string -> Verdict

  /** A password hasher, the salt already chosen. */
  type Hasher = string -> string

  /** The key the error dictionary uses for each field. */
  function FieldName(f: Field): (name: string)
    ensures name == PasswordKey <==> f == PasswordField
  {
    match f
    case PasswordField => PasswordKey
    case OldPasswordField => "old_password"
    case NewPasswordField => "new_password"
  }

  // ---------------------------------------------------------------------------
  // Registration.
  // ---------------------------------------------------------------------------

  /** Registration validation: the strength check on `password` first, keyed to
      `password`; then the comparison with `password_repeat`; on success the
      input without `password_repeat`. */
  function ValidateRegistration(data: Data, policy: PasswordPolicy): (r: Result<Data, ValidationError>)
    requires PasswordKey in data && PasswordRepeatKey in data
    ensures policy(data[PasswordKey]).Weak? ==>
              r == Err(FieldError(PasswordField, policy(data[PasswordKey]).messages))
    ensures policy(data[PasswordKey]).Strong? && data[PasswordKey] != data[PasswordRepeatKey] ==>
              r == Err(NonFieldError(MismatchMessage))
    ensures r.Ok? <==> policy(data[PasswordKey]).Strong? && data[PasswordKey] == data[PasswordRepeatKey]
    ensures r.Ok? ==> r.value.Keys == data.Keys - {PasswordRepeatKey}
    ensures r.Ok? ==> forall k :: k in r.value ==> r.value[k] == data[k]
  {
    var password := data[PasswordKey];
    var rest := data - {PasswordRepeatKey};
    match policy(password)
    case Weak(messages) => Err(FieldError(PasswordField, messages))
    case Strong =>
      if password != data[PasswordRepeatKey] then Err(NonFieldError(MismatchMessage))
      else Ok(rest)
  }

  /** Registration create: the stored row has the hash in place of the password. */
  function CreateUser(validated: Data, hash: Hasher): (row: Data)
    requires PasswordKey in validated
    ensures row.Keys == validated.Keys
    ensures row[PasswordKey] == hash(validated[PasswordKey])
    ensures forall k :: k in validated && k != PasswordKey ==> row[k] == validated[k]
  {
    validated[PasswordKey := hash(validated[PasswordKey])]
  }

  /** The whole registration request: validation, then create. */
  function Register(data: Data, policy: PasswordPolicy, hash: Hasher): (r: Result<Data, ValidationError>)
    requires PasswordKey in data && PasswordRepeatKey in data
    ensures r.Ok? <==> ValidateRegistration(data, policy).Ok?
  {
    match ValidateRegistration(data, policy)
    case Err(e) => Err(e)
    case Ok(validated) => Ok(CreateUser(validated, hash))
  }

  /** A registered row never holds the plaintext `password_repeat`, stores the
      hash of the password, and keeps every other field-validated value. */
  lemma RegisterStoresHash(data: Data, policy: PasswordPolicy, hash: Hasher)
    requires PasswordKey in data && PasswordRepeatKey in data
    requires Register(data, policy, hash).Ok?
    ensures var row := Register(data, policy, hash).value;
      && row.Keys == data.Keys - {PasswordRepeatKey}
      && row[PasswordKey] == hash(data[PasswordKey])
      && forall k :: k in row && k != PasswordKey ==> row[k] == data[k]
  {
  }

  /** A weak password is reported against `password` even when the repeat differs too. */
  lemma WeakPasswordReportedFirst(data: Data, policy: PasswordPolicy, hash: Hasher)
    requires PasswordKey in data && PasswordRepeatKey in data
    requires policy(data[PasswordKey]).Weak?
    ensures Register(data, policy, hash).Err?
    ensures Register(data, policy, hash).error.FieldError?
    ensures FieldName(Register(data, policy, hash).error.field) == PasswordKey
  {
  }

  // ---------------------------------------------------------------------------
  // Login.
  // ---------------------------------------------------------------------------

  /** Login: the user `authenticate` finds, or AuthenticationFailed when it finds none. */
  function Login(username: string, password: string, authenticate: (string, string) -> Option<UserId>): (r: Result<UserId, AuthError>)
    ensures r.Err? <==> authenticate(username, password).None?
    ensures forall id :: r == Ok(id) <==> authenticate(username, password) == Some(id)
  {
    match authenticate(username, password)
    case None => Err(AuthenticationFailed)
    case Some(user) => Ok(user)
  }

  // ---------------------------------------------------------------------------
  // Password change.
  // ---------------------------------------------------------------------------

  /** The validated input of a password change; `user` is the requesting user's row. */
  datatype PasswordChange = PasswordChange(user: Data, oldPassword: string, newPassword: string)

  /** Password change validation: the old password must check, keyed to
      `old_password`; then the new one must be strong, keyed to `new_password`. */
  function ValidatePasswordChange(data: PasswordChange, checkPassword: (Data, string) -> bool, policy: PasswordPolicy)
    : (r: Result<PasswordChange, ValidationError>)
    ensures !checkPassword(data.user, data.oldPassword) ==>
              r == Err(FieldError(OldPasswordField, [WrongPasswordMessage]))
    ensures checkPassword(data.user, data.oldPassword) && policy(data.newPassword).Weak? ==>
              r == Err(FieldError(NewPasswordField, policy(data.newPassword).messages))
    ensures r.Ok? <==> checkPassword(data.user, data.oldPassword) && policy(data.newPassword).Strong?
    ensures r.Ok? ==> r.value == data
  {
    if !checkPassword(data.user, data.oldPassword) then
      Err(FieldError(OldPasswordField, [WrongPasswordMessage]))
    else match policy(data.newPassword)
      case Weak(messages) => Err(FieldError(NewPasswordField, messages))
      case Strong => Ok(data)
  }

  /** Password update: the row's password becomes the hash of the new one. */
  function UpdatePassword(row: Data, validated: PasswordChange, hash: Hasher): (updated: Data)
    ensures updated.Keys == row.Keys + {PasswordKey}
    ensures updated[PasswordKey] == hash(validated.newPassword)
    ensures forall k :: k in row && k != PasswordKey ==> updated[k] == row[k]
  {
    row[PasswordKey := hash(validated.newPassword)]
  }

  /** The whole password change request on the requesting user's own row. */
  function ChangePassword(user: Data, oldPassword: string, newPassword: string,
                          checkPassword: (Data, string) -> bool, policy: PasswordPolicy, hash: Hasher)
    : (r: Result<Data, ValidationError>)
    ensures r.Ok? <==> checkPassword(user, oldPassword) && policy(newPassword).Strong?
  {
    match ValidatePasswordChange(PasswordChange(user, oldPassword, newPassword), checkPassword, policy)
    case Err(e) => Err(e)
    case Ok(validated) => Ok(UpdatePassword(user, validated, hash))
  }

  /** A wrong old password is reported against `old_password`, whatever the new one is. */
  lemma WrongOldPasswordFirst(user: Data, oldPassword: string, newPassword: string,
                              checkPassword: (Data, string) -> bool, policy: PasswordPolicy, hash: Hasher)
    requires !checkPassword(user, oldPassword)
    ensures ChangePassword(user, oldPassword, newPassword, checkPassword, policy, hash)
            == Err(FieldError(OldPasswordField, [WrongPasswordMessage]))
  {
  }

  /** A successful change stores the new password's hash and nothing else changes. */
  lemma ChangePasswordOnlyTouchesPassword(user: Data, oldPassword: string, newPassword: string,
                                          checkPassword: (Data, string) -> bool, policy: PasswordPolicy, hash: Hasher)
    requires ChangePassword(user, oldPassword, newPassword, checkPassword, policy, hash).Ok?
    ensures var row := ChangePassword(user, oldPassword, newPassword, checkPassword, policy, hash).value;
      && row.Keys == user.Keys + {PasswordKey}
      && row[PasswordKey] == hash(newPassword)
      && forall k :: k in user && k != PasswordKey ==> row[k] == user[k]
  {
  }
}

=== FILE: goals_destroy.dfy ===
/** Deleting boards, categories, goals and comments: the views' `perform_destroy`
    as atomic store-to-store functions, and the detail views' delete request
    (object lookup, permission check, then the destroy). */
module GoalsDestroy {
  import opened Results
  import opened GoalsModel
  import opened GoalsScope

  // ---------------------------------------------------------------------------
  // perform_destroy of each detail view.
  // ---------------------------------------------------------------------------

  /** Board delete, one transaction: flag the board, flag every category on it
      (already deleted ones included), archive every goal whose category is on it. */
  function DeleteBoard(s: Store, b: Id): (t: Store)
    requires b in s.boards
    ensures t.boards.Keys == s.boards.Keys && t.categories.Keys == s.categories.Keys
    ensures t.goals.Keys == s.goals.Keys && t.comments == s.comments
    ensures t.boards[b] == s.boards[b].(isDeleted := true)
    ensures forall x :: x in s.boards && x != b ==> t.boards[x] == s.boards[x]
    ensures forall c :: c in s.categories && s.categories[c].board == b ==>
              t.categories[c] == s.categories[c].(isDeleted := true)
    ensures forall c :: c in s.categories && s.categories[c].board != b ==> t.categories[c] == s.categories[c]
    ensures forall g :: g in s.goals && GoalOnBoard(s, g, b) ==> t.goals[g] == s.goals[g].(status := Archived)
    ensures forall g :: g in s.goals && !GoalOnBoard(s, g, b) ==> t.goals[g] == s.goals[g]
  {
    Store(
      s.boards[b := s.boards[b].(isDeleted := true)],
      map c | c in s.categories ::
        if s.categories[c].board == b then s.categories[c].(isDeleted := true) else s.categories[c],
      map g | g in s.goals ::
        if GoalOnBoard(s, g, b) then s.goals[g].(status := Archived) else s.goals[g],
      s.comments)
  }

  /** Category delete: only the category's own flag. The goal query the view
      builds next is never evaluated, so no goal changes (assuming the goal
      table accepts the field names that query filters on). */
  function DeleteCategory(s: Store, c: Id): (t: Store)
    requires c in s.categories
    ensures t.boards == s.boards && t.goals == s.goals && t.comments == s.comments
    ensures t.categories.Keys == s.categories.Keys
    ensures t.categories[c] == s.categories[c].(isDeleted := true)
    ensures forall x :: x in s.categories && x != c ==> t.categories[x] == s.categories[x]
  {
    s.(categories := s.categories[c := s.categories[c].(isDeleted := true)])
  }

  /** Goal delete is archival: the row stays and only its status changes. */
  function ArchiveGoal(s: Store, g: Id): (t: Store)
    requires g in s.goals
    ensures t.boards == s.boards && t.categories == s.categories && t.comments == s.comments
    ensures t.goals.Keys == s.goals.Keys
    ensures t.goals[g] == s.goals[g].(status := Archived)
    ensures forall x :: x in s.goals && x != g ==> t.goals[x] == s.goals[x]
  {
    s.(goals := s.goals[g := s.goals[g].(status := Archived)])
  }

  /** Comment delete keeps the framework default: the row is removed. */
  function RemoveComment(s: Store, m: Id): (t: Store)
    requires m in s.comments
    ensures t.boards == s.boards && t.categories == s.categories && t.goals == s.goals
    ensures t.comments.Keys == s.comments.Keys - {m}
    ensures forall x :: x in t.comments ==> t.comments[x] == s.comments[x]
  {
    s.(comments := s.comments - {m})
  }

  // ---------------------------------------------------------------------------
  // Properties of the deletes.
  // ---------------------------------------------------------------------------

  /** Deleting a board twice is the same as deleting it once. */
  lemma DeleteBoardIdempotent(s: Store, b: Id)
    requires b in s.boards
    ensures DeleteBoard(DeleteBoard(s, b), b) == DeleteBoard(s, b)
  {
  }

  /** Archiving a goal twice is the same as archiving it once. */
  lemma ArchiveGoalIdempotent(s: Store, g: Id)
    requires g in s.goals
    ensures ArchiveGoal(ArchiveGoal(s, g), g) == ArchiveGoal(s, g)
  {
  }

  /** Deleting a category twice is the same as deleting it once. */
  lemma DeleteCategoryIdempotent(s: Store, c: Id)
    requires c in s.categories
    ensures DeleteCategory(DeleteCategory(s, c), c) == DeleteCategory(s, c)
  {
  }

  /** None of the soft deletes adds or removes a row or changes a link. */
  lemma SoftDeletesKeepLinks(s: Store, id: Id)
    ensures id in s.boards ==> SameLinks(s, DeleteBoard(s, id))
    ensures id in s.categories ==> SameLinks(s, DeleteCategory(s, id))
    ensures id in s.goals ==> SameLinks(s, ArchiveGoal(s, id))
  {
  }

  /** After a board delete no user can list or look up the board or any of its
      categories, while every goal and comment stays exactly as visible as before. */
  lemma DeleteBoardVisibility(s: Store, b: Id)
    requires b in s.boards
    ensures var t := DeleteBoard(s, b);
      && (forall u :: !BoardInScope(t, u, b))
      && (forall u, c :: c in s.categories && s.categories[c].board == b ==> !CategoryInScope(t, u, c))
      && (forall u, x :: x != b ==> (BoardInScope(t, u, x) <==> BoardInScope(s, u, x)))
      && (forall u, c :: c in s.categories && s.categories[c].board != b ==>
            (CategoryInScope(t, u, c) <==> CategoryInScope(s, u, c)))
      && (forall u, g :: GoalInScope(t, u, g) <==> GoalInScope(s, u, g))
      && (forall u, m :: CommentInScope(t, u, m) <==> CommentInScope(s, u, m))
  {
  }

  /** After a category delete the category leaves every list, and its goals do not. */
  lemma DeleteCategoryVisibility(s: Store, c: Id)
    requires c in s.categories
    ensures var t := DeleteCategory(s, c);
      && (forall u :: !CategoryInScope(t, u, c))
      && (forall u, g :: GoalInScope(t, u, g) <==> GoalInScope(s, u, g))
      && (forall u, m :: CommentInScope(t, u, m) <==> CommentInScope(s, u, m))
  {
  }

  /** An archived goal stays visible to exactly the users who saw it before. */
  lemma ArchiveGoalVisibility(s: Store, g: Id)
    requires g in s.goals
    ensures forall u, x :: GoalInScope(ArchiveGoal(s, g), u, x) <==> GoalInScope(s, u, x)
  {
  }

  // ---------------------------------------------------------------------------
  // Delete requests through the detail views.
  // ---------------------------------------------------------------------------

  /** The object a detail view is asked about. */
  datatype Resource = BoardRes(id: Id) | CategoryRes(id: Id) | GoalRes(id: Id) | CommentRes(id: Id)

  /** The kind of request, as the permission classes see it. */
  datatype Action = Read | Write | Delete

  datatype ApiError = NotFound | PermissionDenied

  /** The object permission classes, whose rules are not part of this model:
      any decision from the store, the acting user, the object and the action. */
  type Permission = (Store, Id, Resource, Action) -> bool

  /** The view's queryset for this kind of object contains it. */
  predicate InScope(s: Store, u: Id, r: Resource) {
    match r
    case BoardRes(b) => BoardInScope(s, u, b)
    case CategoryRes(c) => CategoryInScope(s, u, c)
    case GoalRes(g) => GoalInScope(s, u, g)
    case CommentRes(m) => CommentInScope(s, u, m)
  }

  /** Looking an object up: outside the queryset it is not found, whatever the
      permissions say; inside, the permission classes decide. */
  function GetObject(s: Store, u: Id, r: Resource, allowed: Permission, action: Action): (res: Result<Resource, ApiError>)
    ensures res.Ok? ==> res.value == r && InScope(s, u, r) && allowed(s, u, r, action)
    ensures res == Err(NotFound) <==> !InScope(s, u, r)
    ensures res == Err(PermissionDenied) <==> InScope(s, u, r) && !allowed(s, u, r, action)
  {
    if !InScope(s, u, r) then Err(NotFound)
    else if !allowed(s, u, r, action) then Err(PermissionDenied)
    else Ok(r)
  }

  /** The view's perform_destroy for the object's kind. */
  function PerformDestroy(s: Store, r: Resource, u: Id): (t: Store)
    requires InScope(s, u, r)
    ensures SameLinks(s, t) || r.CommentRes?
  {
    match r
    case BoardRes(b) => DeleteBoard(s, b)
    case CategoryRes(c) => DeleteCategory(s, c)
    case GoalRes(g) => ArchiveGoal(s, g)
    case CommentRes(m) => RemoveComment(s, m)
  }

  /** A delete request: the lookup, then the destroy; a failed lookup changes nothing. */
  function Destroy(s: Store, u: Id, r: Resource, allowed: Permission): (res: Result<Store, ApiError>)
    ensures res.Ok? <==> InScope(s, u, r) && allowed(s, u, r, Delete)
    ensures res.Ok? ==> res.value == PerformDestroy(s, r, u)
    ensures res == Err(NotFound) <==> !InScope(s, u, r)
  {
    match GetObject(s, u, r, allowed, Delete)
    case Err(e) => Err(e)
    case Ok(_) => Ok(PerformDestroy(s, r, u))
  }

  /** Every delete keeps every foreign key pointing at an existing row. */
  lemma DestroyPreservesWellFormed(s: Store, u: Id, r: Resource, allowed: Permission)
    requires WellFormed(s)
    ensures Destroy(s, u, r, allowed).Ok? ==> WellFormed(Destroy(s, u, r, allowed).value)
  {
  }

  /** A user outside a board gets NotFound, never PermissionDenied, for the board
      and for everything under it, whatever the object-level permission check
      would say. */
  lemma OutsiderGetsNotFound(s: Store, u: Id, b: Id, r: Resource, allowed: Permission, action: Action)
    requires WellFormed(s) && !Participates(s, u, b)
    requires match r
      case BoardRes(x) => x == b
      case CategoryRes(c) => c in s.categories && s.categories[c].board == b
      case GoalRes(g) => g in s.goals && GoalOnBoard(s, g, b)
      case CommentRes(m) => m in s.comments && GoalOnBoard(s, s.comments[m].goal, b)
    ensures GetObject(s, u, r, allowed, action) == Err(NotFound)
  {
  }

  /** A goal delete request can be repeated: the second one succeeds too and
      leaves the store as the first one did. */
  lemma GoalDestroyRepeatable(s: Store, u: Id, g: Id, allowed: Permission)
    requires Destroy(s, u, GoalRes(g), allowed).Ok?
    requires allowed(Destroy(s, u, GoalRes(g), allowed).value, u, GoalRes(g), Delete)
    ensures var t := Destroy(s, u, GoalRes(g), allowed).value;
      Destroy(t, u, GoalRes(g), allowed) == Ok(t)
  {
    var t := Destroy(s, u, GoalRes(g), allowed).value;
    ArchiveGoalVisibility(s, g);
    ArchiveGoalIdempotent(s, g);
    assert GoalInScope(t, u, g);
  }

  /** A board delete request cannot be repeated: the board has left the
      queryset, so the second request is not found. */
  lemma BoardDestroyOnce(s: Store, u: Id, b: Id, allowed: Permission)
    requires Destroy(s, u, BoardRes(b), allowed).Ok?
    ensures Destroy(Destroy(s, u, BoardRes(b), allowed).value, u, BoardRes(b), allowed) == Err(NotFound)
  {
  }

  /** A category delete request leaves every goal row untouched. */
  lemma CategoryDestroyKeepsGoals(s: Store, u: Id, c: Id, allowed: Permission)
    requires Destroy(s, u, CategoryRes(c), allowed).Ok?
    ensures Destroy(s, u, CategoryRes(c), allowed).value.goals == s.goals
  {
  }
}

=== FILE: goals_model.dfy ===
/** The rows the goal views read and write: boards with their participants,
    categories, goals and comments, held as maps from primary keys to records. */
module GoalsModel {
  import opened Results

  /** A primary key (users, boards, categories, goals and comments alike). */
  type Id = nat

  /** A board; `participants` are the users holding any role on it. */
  datatype Board = Board(title: string, participants: set<Id>, isDeleted: bool)

  /** A goal category: attached to one board, created by `user`. */
  datatype Category = Category(board: Id, user: Id, title: string, created: int, isDeleted: bool)

  /** The goal status choices; deleting a goal moves it to `Archived`. */
  datatype Status = ToDo | InProgress | Done | Archived

  /** A goal inside one category; `dueDate` is a nullable date (a day number). */
  datatype Goal = Goal(category: Id, user: Id, title: string, description: string,
                       status: Status, priority: int, dueDate: Option<int>)

  /** A comment on one goal; `created` is its creation timestamp. */
  datatype Comment = Comment(goal: Id, user: Id, text: string, created: int)

  /** The database, one table per entity. */
  datatype Store = Store(boards: map<Id, Board>, categories: map<Id, Category>,
                         goals: map<Id, Goal>, comments: map<Id, Comment>)

  /** Every foreign key points at an existing row. */
  predicate WellFormed(s: Store) {
    && (forall c :: c in s.categories ==> s.categories[c].board in s.boards)
    && (forall g :: g in s.goals ==> s.goals[g].category in s.categories)
    && (forall m :: m in s.comments ==> s.comments[m].goal in s.goals)
  }

  /** User `u` holds a participant row on board `b`. */
  predicate Participates(s: Store, u: Id, b: Id) {
    b in s.boards && u in s.boards[b].participants
  }

  /** The join goal -> category -> board lands on board `b`. */
  predicate GoalOnBoard(s: Store, g: Id, b: Id)
    requires g in s.goals
  {
    var c := s.goals[g].category;
    c in s.categories && s.categories[c].board == b
  }

  /** `s` and `t` have the same rows, the same foreign keys and the same
      participants; they may differ only in flags, statuses and plain fields. */
  predicate SameLinks(s: Store, t: Store) {
    && s.boards.Keys == t.boards.Keys
    && s.categories.Keys == t.categories.Keys
    && s.goals.Keys == t.goals.Keys
    && s.comments.Keys == t.comments.Keys
    && (forall b :: b in s.boards ==> t.boards[b].participants == s.boards[b].participants)
    && (forall c :: c in s.categories ==> t.categories[c].board == s.categories[c].board)
    && (forall g :: g in s.goals ==> t.goals[g].category == s.goals[g].category)
    && (forall m :: m in s.comments ==> t.comments[m].goal == s.comments[m].goal)
  }
}

=== FILE: goals_scope.dfy ===
/** What each user may list or look up (the views' `get_queryset`), and the
    order in which the list views return rows (the views' default `ordering`). */
module GoalsScope {
  import opened Results
  import opened Ordering
  import opened GoalsModel

  // ---------------------------------------------------------------------------
  // Scoping: one predicate per view pair; the list view and the detail view of
  // each entity filter with the same query.
  // ---------------------------------------------------------------------------

  /** Boards: participant and not soft-deleted. */
  predicate BoardInScope(s: Store, u: Id, b: Id) {
    Participates(s, u, b) && !s.boards[b].isDeleted
  }

  /** Categories: participant of the category's board and the category not
      soft-deleted; the board's own flag is not consulted. */
  predicate CategoryInScope(s: Store, u: Id, c: Id) {
    c in s.categories && Participates(s, u, s.categories[c].board) && !s.categories[c].isDeleted
  }

  /** Goals: participant of the board reached through the goal's category.
      Neither the goal's status nor any deletion flag is consulted. */
  predicate GoalInScope(s: Store, u: Id, g: Id) {
    g in s.goals &&
    var c := s.goals[g].category;
    c in s.categories && Participates(s, u, s.categories[c].board)
  }

  /** Comments: the join goal -> category -> board -> participant. */
  predicate CommentInScope(s: Store, u: Id, m: Id) {
    m in s.comments &&
    var g := s.comments[m].goal;
    g in s.goals &&
    var c := s.goals[g].category;
    c in s.categories && Participates(s, u, s.categories[c].board)
  }

  /** A comment is visible exactly when the goal it is attached to is. */
  lemma CommentScopeFollowsGoal(s: Store, u: Id, m: Id)
    requires m in s.comments
    ensures CommentInScope(s, u, m) <==> GoalInScope(s, u, s.comments[m].goal)
  {
  }

  /** Goal and comment visibility depend on participation alone: stores with the
      same rows, links and participants show every user the same goals and
      comments, whatever their statuses and deletion flags. */
  lemma GoalScopeIgnoresFlags(s: Store, t: Store)
    requires SameLinks(s, t)
    ensures forall u, g :: GoalInScope(s, u, g) <==> GoalInScope(t, u, g)
    ensures forall u, m :: CommentInScope(s, u, m) <==> CommentInScope(t, u, m)
  {
  }

  /** Nobody sees anything below a board they do not participate in. */
  lemma OutsidersSeeNothing(s: Store, u: Id, b: Id)
    requires WellFormed(s) && !Participates(s, u, b)
    ensures !BoardInScope(s, u, b)
    ensures forall c :: c in s.categories && s.categories[c].board == b ==> !CategoryInScope(s, u, c)
    ensures forall g :: g in s.goals && GoalOnBoard(s, g, b) ==> !GoalInScope(s, u, g)
    ensures forall m :: m in s.comments && GoalOnBoard(s, s.comments[m].goal, b) ==> !CommentInScope(s, u, m)
  {
  }

  // ---------------------------------------------------------------------------
  // Default orderings.
  // ---------------------------------------------------------------------------

  /** Titles compare character by character; a proper prefix comes first. */
  predicate TitleLe(a: string, b: string)
    decreases |a|
  {
    |a| == 0 || (|b| > 0 && (a[0] < b[0] || (a[0] == b[0] && TitleLe(a[1..], b[1..]))))
  }

  /** Ascending nullable dates, a missing date after every present one. */
  predicate DueLe(a: Option<int>, b: Option<int>) {
    match (a, b)
    case (Some(x), Some(y)) => x <= y
    case (Some(_), None) => true
    case (None, None) => true
    case (None, Some(_)) => false
  }

  /** The goal list order: priority first, then due date. */
  predicate GoalLe(a: Goal, b: Goal) {
    a.priority < b.priority || (a.priority == b.priority && DueLe(a.dueDate, b.dueDate))
  }

  /** The comment list order: newest first. */
  predicate CommentLe(a: Comment, b: Comment) {
    a.created >= b.created
  }

  function TitleKey(t: string): Key {
    seq(|t|, i requires 0 <= i < |t| => t[i] as int)
  }

  function GoalKey(g: Goal): Key {
    [g.priority] + match g.dueDate { case Some(d) => [0, d] case None => [1] }
  }

  function CommentKey(m: Comment): Key {
    [-m.created]
  }

  /** The title key orders titles exactly as TitleLe does. */
  lemma {:induction false} TitleKeyOrder(a: string, b: string)
    ensures KeyLe(TitleKey(a), TitleKey(b)) <==> TitleLe(a, b)
    decreases |a|
  {
    if |a| > 0 && |b| > 0 {
      assert TitleKey(a)[1..] == TitleKey(a[1..]);
      assert TitleKey(b)[1..] == TitleKey(b[1..]);
      TitleKeyOrder(a[1..], b[1..]);
    }
  }

  /** The goal key orders goals exactly as GoalLe does. */
  lemma GoalKeyOrder(a: Goal, b: Goal)
    ensures KeyLe(GoalKey(a), GoalKey(b)) <==> GoalLe(a, b)
  {
    var ka, kb := GoalKey(a), GoalKey(b);
    assert ka[0] == a.priority && kb[0] == b.priority;
    match (a.dueDate, b.dueDate)
    case (Some(x), Some(y)) =>
      assert ka[1..] == [0, x] && kb[1..] == [0, y];
      assert [0, x][1..] == [x] && [0, y][1..] == [y];
    case (Some(x), None) =>
      assert ka[1..] == [0, x] && kb[1..] == [1];
    case (None, None) =>
      assert ka[1..] == [1] && kb[1..] == [1];
      assert [1][1..] == [];
    case (None, Some(y)) =>
      assert ka[1..] == [1] && kb[1..] == [0, y];
  }

  /** The comment key orders comments exactly as CommentLe does. */
  lemma CommentKeyOrder(a: Comment, b: Comment)
    ensures KeyLe(CommentKey(a), CommentKey(b)) <==> CommentLe(a, b)
  {
    assert CommentKey(a)[1..] == [];
  }

  // ---------------------------------------------------------------------------
  // List views.
  // ---------------------------------------------------------------------------

  /** The board list: exactly the boards in scope, once each, by title. */
  method ListBoards(s: Store, u: Id) returns (r: seq<Id>)
    ensures Distinct(r)
    ensures forall b :: b in r <==> BoardInScope(s, u, b)
    ensures forall i, j :: 0 <= i < j < |r| ==>
              r[i] in s.boards && r[j] in s.boards && TitleLe(s.boards[r[i]].title, s.boards[r[j]].title)
  {
    var ids := set b | b in s.boards && BoardInScope(s, u, b);
    var keys := map b | b in ids :: TitleKey(s.boards[b].title);
    r := SortByKey(ids, keys);
    forall i, j | 0 <= i < j < |r|
      ensures r[i] in s.boards && r[j] in s.boards && TitleLe(s.boards[r[i]].title, s.boards[r[j]].title)
    {
      assert r[i] in ids && r[j] in ids;
      TitleKeyOrder(s.boards[r[i]].title, s.boards[r[j]].title);
    }
  }

  /** The category list: exactly the categories in scope, once each, by title. */
  method ListCategories(s: Store, u: Id) returns (r: seq<Id>)
    ensures Distinct(r)
    ensures forall c :: c in r <==> CategoryInScope(s, u, c)
    ensures forall i, j :: 0 <= i < j < |r| ==>
              r[i] in s.categories && r[j] in s.categories &&
              TitleLe(s.categories[r[i]].title, s.categories[r[j]].title)
  {
    var ids := set c | c in s.categories && CategoryInScope(s, u, c);
    var keys := map c | c in ids :: TitleKey(s.categories[c].title);
    r := SortByKey(ids, keys);
    forall i, j | 0 <= i < j < |r|
      ensures r[i] in s.categories && r[j] in s.categories &&
              TitleLe(s.categories[r[i]].title, s.categories[r[j]].title)
    {
      assert r[i] in ids && r[j] in ids;
      TitleKeyOrder(s.categories[r[i]].title, s.categories[r[j]].title);
    }
  }

  /** The goal list: exactly the goals in scope, once each, by priority then due date. */
  method ListGoals(s: Store, u: Id) returns (r: seq<Id>)
    ensures Distinct(r)
    ensures forall g :: g in r <==> GoalInScope(s, u, g)
    ensures forall i, j :: 0 <= i < j < |r| ==>
              r[i] in s.goals && r[j] in s.goals && GoalLe(s.goals[r[i]], s.goals[r[j]])
  {
    var ids := set g | g in s.goals && GoalInScope(s, u, g);
    var keys := map g | g in ids :: GoalKey(s.goals[g]);
    r := SortByKey(ids, keys);
    forall i, j | 0 <= i < j < |r|
      ensures r[i] in s.goals && r[j] in s.goals && GoalLe(s.goals[r[i]], s.goals[r[j]])
    {
      assert r[i] in ids && r[j] in ids;
      GoalKeyOrder(s.goals[r[i]], s.goals[r[j]]);
    }
  }

  /** The comment list: exactly the comments in scope, once each, newest first. */
  method ListComments(s: Store, u: Id) returns (r: seq<Id>)
    ensures Distinct(r)
    ensures forall m :: m in r <==> CommentInScope(s, u, m)
    ensures forall i, j :: 0 <= i < j < |r| ==>
              r[i] in s.comments && r[j] in s.comments && CommentLe(s.comments[r[i]], s.comments[r[j]])
  {
    var ids := set m | m in s.comments && CommentInScope(s, u, m);
    var keys := map m | m in ids :: CommentKey(s.comments[m]);
    r := SortByKey(ids, keys);
    forall i, j | 0 <= i < j < |r|
      ensures r[i] in s.comments && r[j] in s.comments && CommentLe(s.comments[r[i]], s.comments[r[j]])
    {
      assert r[i] in ids && r[j] in ids;
      CommentKeyOrder(s.comments[r[i]], s.comments[r[j]]);
    }
  }
}

=== FILE: ordering.dfy ===
/** Sort keys and the ordered listing every list view returns.
    A key is a sequence of integers compared lexicographically; each view's
    default `ordering` is encoded as such a key (see GoalsScope). */
module Ordering {

  type Key = seq<int>

  /** Lexicographic order on keys; a proper prefix sorts first. */
  predicate KeyLe(a: Key, b: Key)
    decreases |a|
  {
    |a| == 0 || (|b| > 0 && (a[0] < b[0] || (a[0] == b[0] && KeyLe(a[1..], b[1..]))))
  }

  lemma {:induction false} KeyLeTotal(a: Key, b: Key)
    ensures KeyLe(a, b) || KeyLe(b, a)
    decreases |a|
  {
    if |a| > 0 && |b| > 0 && a[0] == b[0] {
      KeyLeTotal(a[1..], b[1..]);
    }
  }

  lemma {:induction false} KeyLeTransitive(a: Key, b: Key, c: Key)
    requires KeyLe(a, b) && KeyLe(b, c)
    ensures KeyLe(a, c)
    decreases |a|
  {
    if |a| > 0 && a[0] == b[0] && b[0] == c[0] {
      KeyLeTransitive(a[1..], b[1..], c[1..]);
    }
  }

  /** No element occurs twice: a query result read as a set of rows. */
  predicate Distinct<T(==)>(xs: seq<T>) {
    forall i, j :: 0 <= i < j < |xs| ==> xs[i] != xs[j]
  }

  /** Every element has a key and the keys never decrease along the sequence. */
  predicate SortedBy<T(==)>(xs: seq<T>, keys: map<T, Key>) {
    && (forall i :: 0 <= i < |xs| ==> xs[i] in keys)
    && (forall i, j :: 0 <= i < j < |xs| ==> KeyLe(keys[xs[i]], keys[xs[j]]))
  }

  /** Inserts `x` after every element whose key is not greater than its own. */
  method Insert<T(==)>(xs: seq<T>, x: T, keys: map<T, Key>) returns (ys: seq<T>)
    requires x in keys && x !in xs
    requires Distinct(xs) && SortedBy(xs, keys)
    ensures Distinct(ys) && SortedBy(ys, keys)
    ensures forall y :: y in ys <==> y in xs || y == x
  {
    var i := 0;
    while i < |xs| && KeyLe(keys[xs[i]], keys[x])
      invariant 0 <= i <= |xs|
      invariant forall k :: 0 <= k < i ==> KeyLe(keys[xs[k]], keys[x])
    {
      i := i + 1;
    }
    ys := xs[..i] + [x] + xs[i..];
    assert |ys| == |xs| + 1;
    assert forall k :: 0 <= k < i ==> ys[k] == xs[k];
    assert ys[i] == x;
    assert forall k :: i < k < |ys| ==> ys[k] == xs[k - 1];
    forall p, q | 0 <= p < q < |ys|
      ensures KeyLe(keys[ys[p]], keys[ys[q]])
    {
      if p == i {
        KeyLeTotal(keys[xs[i]], keys[x]);
        if q - 1 > i {
          KeyLeTransitive(keys[x], keys[xs[i]], keys[xs[q - 1]]);
        }
      }
    }
    forall p, q | 0 <= p < q < |ys|
      ensures ys[p] != ys[q]
    {
      if p == i {
        assert ys[q] in xs;
      } else if q == i {
        assert ys[p] in xs;
      }
    }
  }

  /** Orders a finite set of rows by their keys, as a default `ordering` does. */
  method SortByKey<T(==)>(items: set<T>, keys: map<T, Key>) returns (r: seq<T>)
    requires items <= keys.Keys
    ensures Distinct(r) && SortedBy(r, keys)
    ensures forall x :: x in r <==> x in items
  {
    r := [];
    var rest := items;
    while rest != {}
      invariant rest <= items
      invariant forall x :: x in r <==> x in items && x !in rest
      invariant Distinct(r) && SortedBy(r, keys)
      decreases rest
    {
      var x :| x in rest;
      r := Insert(r, x, keys);
      rest := rest - {x};
    }
  }
}

=== FILE: results.dfy ===
/** Failure-carrying values shared by the board/goal views and the credential serializers. */
module Results {

  /** A value that may be absent (a nullable column, a lookup that found nothing). */
  datatype Option<+T> = None | Some(value: T)

  /** The outcome of a request: the computed value or the error the framework turns into a response. */
  datatype Result<+T, +E> = Ok(value: T) | Err(error: E)
}
